=== FILE: README.md ===
# SignalR hub client — a Dafny model

This project models the hub session of a browser SignalR client bundle.

A `SignalRHub` keeps one named connection to a server hub. It has four parts:

- **Lifecycle.** It moves between `disconnected`, `connecting`, `connected` and `reconnecting`. The moves are driven by `connect`, the connection's `start` promise, the three connection callbacks (`onreconnecting`, `onreconnected`, `onclose`) and `close`.
- **Routing.** While connected, `send` and `invoke` go straight to the connection. Otherwise they go into a bounded outbound queue, and so does a live call that fails.
- **Overflow.** The queue applies its policy when an item is pushed (`_push`):
  - `"oldest"` evicts the head;
  - any other strategy rejects the incoming item, and an invoke is rejected with "Queue full".
- **Drain.** `_flush` replays the queue in FIFO order while the hub stays connected. It resolves each invoke's promise with the remote result, and puts a failed item back at the head.

Four small helpers complete the core:

- `defaults`, a shallow option merge;
- `resolveTransport`;
- `makeDelays`, the reconnect schedule;
- `shouldLog`, the log-level filter.

The `SignalRClient` registry of hubs by name is modelled as a map from names to hub values. `Registry.ApplyAt` stores the hub each action leaves behind, which stands for the registry's reference to the live hub.

The connection library is an oracle:

- A live `send`, `invoke` or `start` takes its `Outcome` (`Ok(value)` or `Failed(error)`) as an argument.
- A drain takes a sequence of `Tick`s. Each tick is either the answer to the operation in flight, or the firing of `onreconnecting` or `onclose` between two drain steps.
- Each drain step (dequeue, attempt, then settle or requeue) is atomic.
- The `start` promise and the three callbacks belong to the connection object that `connect` creates. Before there is one they cannot fire, so in a run they change nothing. A hub that is not disconnected therefore always has a connection (`Session.Wired`).

Every invoke promise gets a numbered handle. Every `resolve`/`reject` call is logged in the hub's `settled` sequence. This is how "each promise is settled at most once" can be stated.

Modules:

| file | module | contents |
|---|---|---|
| basics.dfy | `Basics` | `Option`, JavaScript values, suffix predicate |
| config.dfy | `Config` | option records and defaults, `Defaults`, `ResolveTransport`, `MakeDelays`, `ShouldLog` |
| queue.dfy | `OutboundQueue` | operations, settlements, `Push` (`_push`), runs of pushes, promise handles |
| session.dfy | `Session` | the hub record, lifecycle, `Send`, `Invoke`, `DrainStep`, `Flush` (`_flush`), whole-run invariants |
| registry.dfy | `Registry` | `addHub`, `getHub`, `listHubs`, `removeHub`; an action on a registered hub (`ApplyAt`) and closing the live hub on removal (`RemoveClosesLiveHub`) |
| scenarios.dfy | `Scenarios` | concrete runs with fixed collaborator answers |

Behaviours of the code worth knowing, each proved as it is:

- **A failed drain step does not halt the drain.** The item is put back at the head, and the loop runs again on the same head while the hub stays connected (lines 163-167 and 171-175). `Session.FailedStepRetriesHead` states this.
- **The transport option is spelled `"webSockets"`** (line 45).
- **The overflow policies are the string `"oldest"` and any other string**, and the latter rejects the newest item (line 143).
- **`connectionId` is set only by `onreconnected`.** A successful `start` does not set it, and `onclose` does not clear it (lines 114, 120-130).
- **Evicted invokes hang.** An invoke evicted by `"oldest"` is never settled, so its caller waits forever (`Session.EvictedInvokeNeverSettles`). The same holds for an invoke dropped because queueing is disabled (`Session.DroppedInvokeNeverSettles`).
- **Zero capacity still admits one item.** With `maxSize <= 0` and `"oldest"`, an empty queue still grows to one item (`OutboundQueue.PushZeroCapacityAdmitsOne`). This is why the capacity bound is stated for `maxSize >= 1`.

## Model

| member | source | states |
|---|---|---|
| Config.Defaults | signalr.client.bundle.js:37-42 | a missing object yields the defaults; otherwise the keys are the union, every given key overrides, and every other default key is kept |
| Config.DefaultsIdempotent | signalr.client.bundle.js:37-42 | merging an already merged object against the same defaults again changes nothing |
| Config.ResolveTransport | signalr.client.bundle.js:44-49 | a transport is chosen exactly when the string is that transport's name; every other string, "auto" included, leaves the choice automatic |
| Config.MakeDelays | signalr.client.bundle.js:51-58 | a non-empty explicit list comes back verbatim; otherwise there are exactly max(0, retries) entries, entry i being the backoff for attempt i |
| Config.ShouldLog | signalr.client.bundle.js:60-64 | "silent" prints nothing; an unknown level name on either side prints nothing; a known threshold admits its own level and "error"; for known levels a message prints iff its rank is at most the threshold's |
| Config.ShouldLogMonotone | signalr.client.bundle.js:60-64 | a threshold that admits a level admits every more severe level |
| OutboundQueue.Push | signalr.client.bundle.js:140-151 | disabled: queue unchanged, nothing settled. Room left: the item is appended and earlier entries are untouched. Full under "oldest": the head leaves, the item goes to the tail, the length is kept, nothing is settled. Full otherwise: queue unchanged, and an invoke is rejected with "Queue full" exactly once while a send is dropped silently |
| OutboundQueue.PushPreservesOrder | signalr.client.bundle.js:140-151 | a push never reorders: the result is the old queue or a tail end of the old queue followed by the item |
| OutboundQueue.PushKeepsBound | signalr.client.bundle.js:142-150 | with maxSize >= 1, a queue within capacity stays within capacity |
| OutboundQueue.PushZeroCapacityAdmitsOne | signalr.client.bundle.js:142-150 | with maxSize <= 0 and "oldest", pushing onto an empty queue yields the one item, beyond the capacity |
| OutboundQueue.PushAllAppends | signalr.client.bundle.js:140-151 | while there is room, a run of pushes appends the items in arrival order |
| OutboundQueue.PushAllKeepsNewest | signalr.client.bundle.js:142-150 | under "oldest" with maxSize >= 1, any run of pushes leaves exactly the newest maxSize operations in arrival order and settles nothing |
| OutboundQueue.PushAllKeepsBound | signalr.client.bundle.js:142-150 | with maxSize >= 1, no run of pushes takes the queue past its capacity |
| OutboundQueue.PushHandles | signalr.client.bundle.js:140-151 | a push invents no promise: the handles queued or rejected afterwards are among the old queue's and the item's own |
| Session.NewHub | signalr.client.bundle.js:66-82 | a new hub is disconnected, has no connection id, no connection object and an empty queue, and satisfies the invariant, the capacity bound and "not disconnected only with a connection" |
| Session.Connect | signalr.client.bundle.js:91-104 | the state becomes "connecting" and a connection object exists; queue, settlements, connection id and options are kept |
| Session.StartSettled | signalr.client.bundle.js:126-137 | failure: the state becomes "disconnected", "error" is emitted with the error, the error is rethrown, and the queue is unchanged. Success: "connected" is emitted first, then the queue replays a prefix in order; the hub ends "connected" unless the connection was lost during the drain, and then "reconnecting" or "disconnected". The connection id is untouched either way |
| Session.OnReconnecting | signalr.client.bundle.js:106-110 | the state becomes "reconnecting" and "reconnecting" is emitted with the error; queue and connection id are kept |
| Session.OnReconnected | signalr.client.bundle.js:112-118 | the connection id becomes the new id, "reconnected" is emitted, and the queue replays a prefix in order; the hub ends "connected" unless the connection was lost again during the drain |
| Session.OnReconnectedReplaysQueue | signalr.client.bundle.js:112-118 | after a reconnect whose drain is answered for every queued item, the whole queue is issued in order, each queued invoke resolves (none is rejected), the hub is "connected" and the new connection id is kept |
| Session.OnClose | signalr.client.bundle.js:120-124 | the state becomes "disconnected" and "disconnected" is emitted; the connection id and the queue are kept |
| Session.Close | signalr.client.bundle.js:214 | from any state the hub becomes "disconnected"; stop is called iff a connection object exists; queued work and pending promises are left as they are |
| Session.Send | signalr.client.bundle.js:182-193 | connected and answered: the call is delivered and the queue is untouched; otherwise the same method and args go through the push; the invariant and the capacity bound are kept |
| Session.Invoke | signalr.client.bundle.js:195-210 | a fresh promise is handed out. Connected and answered: it resolves with the remote result and the queue is untouched. Otherwise it goes through the push with the same method and args. Either way no promise is settled twice |
| Session.DrainStep | signalr.client.bundle.js:159-176 | success removes exactly the head, delivers it, and resolves an invoke's promise with the remote result; failure puts the head back, so the hub equals its state before the step |
| Session.Flush | signalr.client.bundle.js:153-180 | not connected: nothing changes. Otherwise the delivered operations are a prefix of the old queue and the rest stays queued in order; the new settlements resolve (never reject) exactly the delivered invokes, in order; the state stays "connected" or drops to "reconnecting"/"disconnected", and it stays "connected" when the connection is never lost |
| Session.DrainLoop | signalr.client.bundle.js:157-178 | the loop form of the drain computes the same hub as the recursive definition and replays a prefix of the queue |
| Session.FailedStepRetriesHead | signalr.client.bundle.js:163-175 | a failed answer leaves the drain exactly where it was: the next answer is spent on the same head |
| Session.FlushDrainsInOrder | signalr.client.bundle.js:157-178 | given a successful answer for each queued operation and no loss of connection, the whole queue is delivered in FIFO order, every queued invoke resolves (none is rejected) in queue order, and the hub stays connected |
| Session.StartReplaysQueue | signalr.client.bundle.js:126-131 | after a successful start answered for every queued item, the operations queued while disconnected are issued in order and each queued invoke resolves, none being rejected |
| Session.SettledAtMostOnce | signalr.client.bundle.js:195-210 | under the invariant, no two settlements name the same promise, and no queued invoke's promise is already settled |
| Session.Apply | signalr.client.bundle.js:91-214 | every operation keeps the options, only appends to the settlement log, keeps the invariant and the capacity bound, and changes the connection id only in onreconnected; `start` settling and the three callbacks change nothing before `connect` has created a connection, so a hub that is not disconnected keeps having a connection |
| Session.Run | signalr.client.bundle.js:91-214 | along any run of operations the options are kept, the settlement log is only appended to, the invariant and the capacity bound hold, a promise that is neither queued nor settled stays that way, a run without onreconnected leaves the connection id as it was, and a hub that is not disconnected always has a connection |
| Session.RunSettlesAtMostOnce | signalr.client.bundle.js:140-210 | from a fresh hub, along any run, no invoke promise is settled twice, a positive capacity is never exceeded, and a hub that is not disconnected has a connection |
| Session.EvictedInvokeNeverSettles | signalr.client.bundle.js:140-151 | an invoke displaced from the head by "oldest", whether by a send or an invoke made while not connected or by a failed live call of either, is never settled afterwards, whatever happens next |
| Session.CallsWhileDown | signalr.client.bundle.js:182-210 | while not connected, a run of send and invoke calls leaves the queue and the rejections exactly as pushing the same operations one after another does (invokes numbered in call order), with the state and deliveries untouched |
| Session.CallsReplayedAfterStart | signalr.client.bundle.js:126-210 | under "oldest", after calls made while not connected and a successful start answered for each item, exactly the newest maxSize of the queued and called operations are delivered in call order and their invokes resolve in that order |
| Session.DroppedInvokeNeverSettles | signalr.client.bundle.js:141 | an invoke that reaches the push while queueing is disabled is never settled, whatever happens next |
| Registry.AddHub | signalr.client.bundle.js:231-239 | the new hub is stored under its name in the connecting state, replacing any hub of that name; every other hub is untouched |
| Registry.ListHubs | signalr.client.bundle.js:242 | the listed names are exactly the names under which a hub is found |
| Registry.ApplyAt | signalr.client.bundle.js:233 | an action on a registered hub replaces it by the hub the action leaves, keeping the invariant; every other hub and the names are untouched; an unknown name changes nothing |
| Registry.RemoveClosesLiveHub | signalr.client.bundle.js:243-245 | removing a hub closes it as the latest action left it, with that action's queue and settlements |
| Registry.RemoveHub | signalr.client.bundle.js:243-247 | the name disappears and the other hubs are untouched; the hub is closed iff it was registered; an unknown name changes nothing |
| Registry.AddThenRemove | signalr.client.bundle.js:231-247 | a hub just added is found under its name; after removing it, it is not, and the list is back to the old names minus that name |
| Scenarios.DisplaceOldestKeepsNewest | signalr.client.bundle.js:142-150 | with capacity 2 and "oldest", sends A, B and C while disconnected leave B and C queued |
| Scenarios.QueuedSendsReplayInOrder | signalr.client.bundle.js:126-131 | once start succeeds, the queued B and C are delivered in that order and the queue empties |
| Scenarios.RejectNewestRejectsInvoke | signalr.client.bundle.js:145-147 | with capacity 1 and any other strategy, a second invoke is rejected with "Queue full" and only the first stays queued |
| Scenarios.LiveInvokeResolves | signalr.client.bundle.js:198-199 | a connected invoke answered with 42 resolves with 42 without queueing |
| Scenarios.FailedSendIsRetried | signalr.client.bundle.js:184-189 | a connected send that fails is queued, survives the drop to "reconnecting", and is delivered by the drain after reconnecting |

## Left out

- **Script loading and DOM bootstrap.** `ensureSignalR`, `bootstrap` and the `DOMContentLoaded` wiring are browser I/O.
- **Console output of `_log`.** Only its filter, `shouldLog`, is modelled.
- **The `Emitter` event bus and its try/catch around listeners.** `clientEmit` calls are recorded as `ClientEvent`s in the hub's `events` log instead.
- **`HubConnectionBuilder` construction, and `on`/`off`** (lines 97-104, 212-213). These delegate to a library that is not part of this model. The connection is an oracle.
- **Headers and `accessTokenFactory`.** They are only handed to the connection builder.
- **Real promise interleavings.**
  - Each drain step is atomic, and connection losses fall between steps.
  - A live-send failure that is pushed while a drain item is in flight is not modelled. Such a push can exceed `maxSize` after the requeue.
  - A second `_flush` started while one is running is not modelled either.
- **Option-object merging in the constructors** (lines 69-77, 218-226). Hubs carry typed, already-merged option records. `defaults` itself is modelled generically over maps.
- **JavaScript truthiness in `defaults`** (`val || {}`). Any missing value is `None`, and a non-object value is not modelled.
- **The `if (!item) return;` guard of the drain** (line 160). Queued items are always objects, so it never fires.
- Config.MakeDelays: the numeric value `Math.round(retryDelayMs * Math.pow(factor, i))` is floating-point arithmetic. It is the parameter `backoff(i)`; only the list's length, order and explicit-list path are stated.
- Registry.ListHubs: returns a set, because the key order of the JavaScript object is not modelled.
- **A hub without an emitter.** Every `clientEmit` call in the hub is guarded (`clientEmit && clientEmit(...)`, lines 109, 116, 123, 129, 135). A hub connected without an emitter emits nothing. The model always records the event, as it happens when the hub is added through the registry.
- Registry.AddHub: the shallow merge `defaults(options, this._options)` (line 232) is not modelled. A hub's own `reconnect`, `queue` or `logging` object replaces the client's whole object. The model takes the merged options as given.
- Registry.AddHub: the name `"__proto__"` is not modelled. The source replaces the registry object's prototype instead of adding a key.
- Registry.ListHubs: names inherited from `Object.prototype` are not modelled. In the source `getHub` finds them (for example `"toString"`), but `listHubs` never lists them.
- Registry.RemoveHub: for a name inherited from `Object.prototype`, the source calls `close()` on a non-hub and throws. The model treats every unregistered name as unknown, and then nothing changes.
- Registry.AddThenRemove: stated for the map model. After adding and removing an inherited name such as `"toString"`, the source's `getHub` still finds the inherited function.
- Registry.RemoveHub: the registry holds hub values, not references. It closes the hub as last stored, so a caller that acts on a hub outside `Registry.ApplyAt` must store the updated hub for `removeHub` to close the live one.
- Config.ShouldLog: names inherited from `Object.prototype` are not modelled. `rank` (line 62) is an object literal, so `rank["toString"]` is a function, and `shouldLog("toString", "toString")` prints in the source. The model treats every name other than the four levels as unknown. The hub itself only logs at "warn", "info" and "error".
- **`addHub`'s wait for `connect`.** Its promise resolving with the hub is not modelled. `Registry.AddHub` stops at the call of `start`, which is settled by `Session.StartSettled`.
- Session.Flush: the drain runs only as long as the collaborator supplies ticks. The code would keep retrying a failing head for as long as the hub stays connected, so an endless run of failures is represented only by its finite prefixes.
- Session.Flush: the whole drain is one step of a run. Application calls (`send`, `invoke`, `close`) never fall between two drain steps, although in the code each item's call is chained on a promise and the loop re-enters only after it settles (lines 158, 167, 175), so such a call can run in between. A drain cut short because the ticks ran out counts as finished, while the code's loop keeps running until the queue is empty or the hub leaves "connected".

=== FILE: basics.dfy ===
/** Value types shared by every part of the hub client model. */
module Basics {

  /** `None` stands for JavaScript's `null` / `undefined`. */
  datatype Option<+T> = None | Some(value: T)

  /** A JavaScript value as it travels as a remote-call argument or a remote result. */
  datatype Value =
    | Undefined
    | Null
    | Bool(b: bool)
    | Num(n: real)
    | Str(s: string)
    | List(items: seq<Value>)

  lemma SeqAssoc<T>(a: seq<T>, b: seq<T>, c: seq<T>)
    ensures (a + b) + c == a + (b + c)
  {
  }

  /** `a` is a (possibly empty) tail end of `b`. */
  predicate IsSuffixOf<T(==)>(a: seq<T>, b: seq<T>) {
    |a| <= |b| && a == b[|b| - |a|..]
  }
}

=== FILE: config.dfy ===
/**
 * The small pure helpers of the hub client: the shallow option merge, the
 * transport-name mapping, the reconnect delay schedule and the log filter,
 * together with the typed option records a hub is configured with.
 */
module Config {
  import opened Basics

  // ---------------------------------------------------------------------------
  // Option records and their defaults
  // ---------------------------------------------------------------------------

  /** Reconnect policy. `retryDelayMs` and `factor` only feed the numeric
      backoff, which the model takes as a parameter (see `MakeDelays`). */
  datatype ReconnectOptions = ReconnectOptions(retries: int, retryDelayMs: real, factor: real, delaysMs: seq<int>)

  /** Queue policy: any `dropStrategy` other than "oldest" rejects the newest item. */
  datatype QueueOptions = QueueOptions(enabled: bool, maxSize: int, dropStrategy: string)

  /** The options a hub keeps after merging with the defaults. Headers and the
      access-token factory are only handed to the connection builder. */
  datatype HubOptions = HubOptions(reconnect: ReconnectOptions, queue: QueueOptions, logLevel: string, transport: string)

  const DefaultReconnect: ReconnectOptions := ReconnectOptions(5, 1000.0, 1.8, [])
  const DefaultQueue: QueueOptions := QueueOptions(true, 1000, "oldest")
  const DefaultOptions: HubOptions := HubOptions(DefaultReconnect, DefaultQueue, "warn", "auto")

  // ---------------------------------------------------------------------------
  // defaults(val, d)
  // ---------------------------------------------------------------------------

  /** Shallow merge: every key of `val` overrides the same key of `d`; a
      missing `val` behaves as an empty object. */
  function Defaults<K(==), V>(val: Option<map<K, V>>, d: map<K, V>): (out: map<K, V>)
    ensures val.None? ==> out == d
    ensures val.Some? ==> out.Keys == d.Keys + val.value.Keys
    ensures val.Some? ==> forall k :: k in val.value ==> out[k] == val.value[k]
    ensures val.Some? ==> forall k :: k in d && k !in val.value ==> out[k] == d[k]
  {
    match val
    case None => d
    case Some(v) => d + v
  }

  /** Merging a second time against the same defaults changes nothing, which is
      why a hub created through the client registry may merge twice. */
  lemma DefaultsIdempotent<K, V>(val: Option<map<K, V>>, d: map<K, V>)
    ensures Defaults(Some(Defaults(val, d)), d) == Defaults(val, d)
  {
    var once := Defaults(val, d);
    var twice := Defaults(Some(once), d);
    assert twice.Keys == once.Keys;
    assert forall k :: k in twice ==> twice[k] == once[k];
  }

  // ---------------------------------------------------------------------------
  // resolveTransport(t)
  // ---------------------------------------------------------------------------

  datatype Transport = WebSockets | ServerSentEvents | LongPolling

  /** The option string that selects each transport. */
  function TransportName(t: Transport): string {
    match t
    case WebSockets => "webSockets"
    case ServerSentEvents => "serverSentEvents"
    case LongPolling => "longPolling"
  }

  /** `None` is the automatic choice: every string that names no transport,
      "auto" included, leaves the choice to the connection library. */
  function ResolveTransport(name: string): (r: Option<Transport>)
    ensures forall t :: r == Some(t) <==> name == TransportName(t)
    ensures r.None? <==> forall t :: name != TransportName(t)
  {
    if name == "webSockets" then Some(WebSockets)
    else if name == "serverSentEvents" then Some(ServerSentEvents)
    else if name == "longPolling" then Some(LongPolling)
    else None
  }

  // ---------------------------------------------------------------------------
  // makeDelays(opts)
  // ---------------------------------------------------------------------------

  /** The reconnect delay schedule. A non-empty explicit list is copied as is;
      otherwise one entry per retry, entry `i` being `backoff(i)`, which stands
      for the rounded floating-point value `retryDelayMs * factor^i`. */
  method MakeDelays(opts: ReconnectOptions, backoff: nat -> int) returns (delays: seq<int>)
    ensures |opts.delaysMs| > 0 ==> delays == opts.delaysMs
    ensures |opts.delaysMs| == 0 ==> |delays| == (if opts.retries > 0 then opts.retries else 0)
    ensures |opts.delaysMs| == 0 ==> forall i :: 0 <= i < |delays| ==> delays[i] == backoff(i)
  {
    if |opts.delaysMs| > 0 {
      return opts.delaysMs;
    }
    delays := [];
    var i := 0;
    while i < opts.retries
      invariant i == |delays|
      invariant i <= (if opts.retries > 0 then opts.retries else 0)
      invariant forall j :: 0 <= j < |delays| ==> delays[j] == backoff(j)
    {
      delays := delays + [backoff(i)];
      i := i + 1;
    }
  }

  // ---------------------------------------------------------------------------
  // shouldLog(cur, level)
  // ---------------------------------------------------------------------------

  /** The verbosity rank of a level name; unknown names (and "silent") have none. */
  function Rank(level: string): Option<nat> {
    if level == "error" then Some(1)
    else if level == "warn" then Some(2)
    else if level == "info" then Some(3)
    else if level == "debug" then Some(4)
    else None
  }

  predicate KnownLevel(level: string) {
    Rank(level).Some?
  }

  /** Whether a message at `level` is printed under the threshold `cur`. A
      comparison involving an unknown name is false, as `undefined >= n` is. */
  function ShouldLog(cur: string, level: string): (b: bool)
    ensures cur == "silent" ==> !b
    ensures b ==> KnownLevel(cur) && KnownLevel(level)
    ensures KnownLevel(cur) && (level == cur || level == "error") ==> b
    ensures KnownLevel(cur) && KnownLevel(level) ==> (b <==> Rank(level).value <= Rank(cur).value)
  {
    if cur == "silent" then false
    else match (Rank(cur), Rank(level))
      case (Some(c), Some(l)) => c >= l
      case _ => false
  }

  /** A threshold that admits a message also admits every more severe one. */
  lemma ShouldLogMonotone(cur: string, level: string, severer: string)
    requires ShouldLog(cur, level)
    requires KnownLevel(severer) && Rank(severer).value <= Rank(level).value
    ensures ShouldLog(cur, severer)
  {
  }
}

=== FILE: queue.dfy ===
/**
 * The hub's bounded outbound queue (`_push`): pending sends and invokes in
 * arrival order, with the overflow policy applied at enqueue time.
 */
module OutboundQueue {
  import opened Basics
  import opened Config

  /** The identity of an invoke's pending promise. The model numbers promises
      so that "settled at most once" can be stated. */
  type Handle = nat

  /** A queued operation. An invoke carries the promise its caller awaits. */
  datatype Op =
    | SendOp(name: string, args: seq<Value>)
    | InvokeOp(name: string, args: seq<Value>, handle: Handle)

  /** A call of an invoke promise's `resolve` or `reject`. */
  datatype Settlement =
    | Resolved(handle: Handle, result: Value)
    | Rejected(handle: Handle, reason: string)

  const QueueFull: string := "Queue full"

  /** The queue after `_push`, and the promise settlements `_push` made. */
  datatype PushResult = PushResult(queue: seq<Op>, settled: seq<Settlement>)

  /** `Array.prototype.shift` for its effect on the array: on an empty array
      it removes nothing. */
  function Shift(q: seq<Op>): seq<Op> {
    if |q| == 0 then [] else q[1..]
  }

  /** `_push(item)`. Capacity is reached when the length is at least `maxSize`. */
  function Push(opts: QueueOptions, q: seq<Op>, item: Op): (r: PushResult)
    // queueing disabled: the item is dropped, nothing is settled
    ensures !opts.enabled ==> r.queue == q && r.settled == []
    // room left: the item goes to the tail, earlier entries untouched
    ensures opts.enabled && |q| < opts.maxSize ==>
      |r.queue| == |q| + 1 && r.queue[..|q|] == q && r.queue[|q|] == item && r.settled == []
    // full, "oldest": the head goes, the item goes to the tail, and no promise
    // is settled (an evicted invoke's promise is left pending)
    ensures opts.enabled && |q| >= opts.maxSize && opts.dropStrategy == "oldest" ==>
      && r.settled == []
      && |r.queue| == (if |q| == 0 then 1 else |q|)
      && r.queue[|r.queue| - 1] == item
      && (|q| > 0 ==> r.queue[..|q| - 1] == q[1..])
    // full, any other strategy: queue unchanged; an incoming invoke is
    // rejected with "Queue full" exactly once, a send is dropped silently
    ensures opts.enabled && |q| >= opts.maxSize && opts.dropStrategy != "oldest" ==>
      && r.queue == q
      && |r.settled| == (if item.InvokeOp? then 1 else 0)
      && (item.InvokeOp? ==> r.settled[0] == Rejected(item.handle, QueueFull))
  {
    if !opts.enabled then PushResult(q, [])
    else if |q| >= opts.maxSize then
      if opts.dropStrategy == "oldest" then PushResult(Shift(q) + [item], [])
      else PushResult(q, if item.InvokeOp? then [Rejected(item.handle, QueueFull)] else [])
    else PushResult(q + [item], [])
  }

  /** `_push` never reorders: the result is the old queue or a tail end of the
      old queue followed by the new item. */
  lemma PushPreservesOrder(opts: QueueOptions, q: seq<Op>, item: Op)
    ensures var r := Push(opts, q, item);
      r.queue == q || IsSuffixOf(r.queue, q + [item])
  {
    var r := Push(opts, q, item);
    if opts.enabled && |q| >= opts.maxSize && opts.dropStrategy == "oldest" && |q| > 0 {
      assert r.queue == (q + [item])[1..];
    }
  }

  /** With `maxSize >= 1`, `_push` keeps the queue within its capacity. */
  lemma PushKeepsBound(opts: QueueOptions, q: seq<Op>, item: Op)
    requires opts.maxSize >= 1 && |q| <= opts.maxSize
    ensures |Push(opts, q, item).queue| <= opts.maxSize
  {
  }

  /** With `maxSize` zero or below and the "oldest" strategy, every push still
      lands: the empty queue grows to length one, beyond its capacity. */
  lemma PushZeroCapacityAdmitsOne(opts: QueueOptions, item: Op)
    requires opts.enabled && opts.maxSize <= 0 && opts.dropStrategy == "oldest"
    ensures Push(opts, [], item).queue == [item]
    ensures |Push(opts, [], item).queue| > opts.maxSize
  {
  }

  // ---------------------------------------------------------------------------
  // A run of pushes
  // ---------------------------------------------------------------------------

  /** Pushing `items` one after another, oldest first. */
  function PushAll(opts: QueueOptions, q: seq<Op>, items: seq<Op>): (r: PushResult)
    decreases |items|
  {
    if |items| == 0 then PushResult(q, [])
    else
      var before := PushAll(opts, q, items[..|items| - 1]);
      var last := Push(opts, before.queue, items[|items| - 1]);
      PushResult(last.queue, before.settled + last.settled)
  }

  /** A run of pushes followed by one more push. */
  lemma PushAllSnoc(opts: QueueOptions, q: seq<Op>, items: seq<Op>, x: Op)
    ensures var p := PushAll(opts, q, items);
      var last := Push(opts, p.queue, x);
      PushAll(opts, q, items + [x]) == PushResult(last.queue, p.settled + last.settled)
  {
    var all := items + [x];
    assert all[..|all| - 1] == items && all[|all| - 1] == x;
  }

  /** While there is room, a run of pushes appends the items in order. */
  lemma {:induction false} PushAllAppends(opts: QueueOptions, q: seq<Op>, items: seq<Op>)
    requires opts.enabled && |q| + |items| <= opts.maxSize
    ensures PushAll(opts, q, items) == PushResult(q + items, [])
    decreases |items|
  {
    if |items| > 0 {
      var init, x := items[..|items| - 1], items[|items| - 1];
      PushAllAppends(opts, q, init);
      assert Push(opts, q + init, x) == PushResult((q + init) + [x], []);
      SnocSplit(items);
      SeqAssoc(q, init, [x]);
    }
  }

  lemma SnocSplit<T>(s: seq<T>)
    requires |s| > 0
    ensures s[..|s| - 1] + [s[|s| - 1]] == s
  {
  }

  /** The last `n` elements of `s` (all of `s` when it is shorter). */
  function Newest<T>(n: nat, s: seq<T>): (r: seq<T>)
    ensures IsSuffixOf(r, s) && |r| == (if |s| <= n then |s| else n)
  {
    if |s| <= n then s else s[|s| - n..]
  }

  /** Under "oldest", a run of pushes into a queue within its capacity leaves
      exactly the newest `maxSize` operations, in arrival order, and settles
      nothing. */
  lemma {:induction false} PushAllKeepsNewest(opts: QueueOptions, q: seq<Op>, items: seq<Op>)
    requires opts.enabled && opts.dropStrategy == "oldest" && opts.maxSize >= 1
    requires |q| <= opts.maxSize
    ensures PushAll(opts, q, items) == PushResult(Newest(opts.maxSize, q + items), [])
    decreases |items|
  {
    if |items| == 0 {
      assert q + items == q;
    } else {
      var init := items[..|items| - 1];
      var x := items[|items| - 1];
      assert q + items == (q + init) + [x];
      PushAllKeepsNewest(opts, q, init);
      var cur := Newest(opts.maxSize, q + init);
      var next := if |cur| < opts.maxSize then cur + [x] else cur[1..] + [x];
      PushOldestStep(opts, cur, x);
      NewestSnoc(opts.maxSize, q + init, x);
      assert Newest(opts.maxSize, q + items) == next;
      assert PushAll(opts, q, items).queue == next;
      assert PushAll(opts, q, items).settled == [];
    }
  }

  /** At capacity under "oldest", a non-empty queue loses its head and gains
      the item, and nothing is settled. */
  lemma PushEvictsHead(opts: QueueOptions, q: seq<Op>, item: Op)
    requires opts.enabled && opts.dropStrategy == "oldest" && |q| >= opts.maxSize && |q| > 0
    ensures Push(opts, q, item) == PushResult(q[1..] + [item], [])
  {
  }

  lemma PushOldestStep(opts: QueueOptions, cur: seq<Op>, x: Op)
    requires opts.enabled && opts.dropStrategy == "oldest" && opts.maxSize >= 1
    requires |cur| <= opts.maxSize
    ensures Push(opts, cur, x) == PushResult(if |cur| < opts.maxSize then cur + [x] else cur[1..] + [x], [])
  {
  }

  /** Appending to a window of the newest `n` elements: while it is short the
      window grows, once full its oldest element leaves. */
  lemma NewestSnoc<T>(n: nat, s: seq<T>, x: T)
    requires n >= 1
    ensures var cur := Newest(n, s);
      Newest(n, s + [x]) == if |cur| < n then cur + [x] else cur[1..] + [x]
  {
    var cur := Newest(n, s);
    if |cur| >= n {
      assert |s| >= n;
      assert (s + [x])[|s| + 1 - n..] == s[|s| - n + 1..] + [x];
    }
  }

  /** With `maxSize >= 1`, no run of pushes takes the queue past its capacity. */
  lemma {:induction false} PushAllKeepsBound(opts: QueueOptions, q: seq<Op>, items: seq<Op>)
    requires opts.maxSize >= 1 && |q| <= opts.maxSize
    ensures |PushAll(opts, q, items).queue| <= opts.maxSize
    decreases |items|
  {
    if |items| > 0 {
      PushAllKeepsBound(opts, q, items[..|items| - 1]);
    }
  }

  // ---------------------------------------------------------------------------
  // Promise handles held by the queue and by settlements
  // ---------------------------------------------------------------------------

  /** The promise handles of the invokes in `q`, in queue order. */
  function QueuedHandles(q: seq<Op>): seq<Handle> {
    if |q| == 0 then [] else OpHandles(q[0]) + QueuedHandles(q[1..])
  }

  lemma QueuedHandlesCons(q: seq<Op>)
    requires |q| > 0
    ensures QueuedHandles(q) == OpHandles(q[0]) + QueuedHandles(q[1..])
  {
  }

  /** The handles settled by `ss`, in order. */
  function Handles(ss: seq<Settlement>): (hs: seq<Handle>)
    ensures |hs| == |ss|
  {
    if |ss| == 0 then [] else [ss[0].handle] + Handles(ss[1..])
  }

  lemma {:induction false} QueuedHandlesAppend(a: seq<Op>, b: seq<Op>)
    ensures QueuedHandles(a + b) == QueuedHandles(a) + QueuedHandles(b)
    decreases |a|
  {
    if |a| == 0 {
      assert a + b == b;
    } else {
      assert (a + b)[0] == a[0] && (a + b)[1..] == a[1..] + b;
      QueuedHandlesAppend(a[1..], b);
      QueuedHandlesCons(a + b);
      QueuedHandlesCons(a);
      SeqAssoc(OpHandles(a[0]), QueuedHandles(a[1..]), QueuedHandles(b));
    }
  }

  lemma {:induction false} HandlesAppend(a: seq<Settlement>, b: seq<Settlement>)
    ensures Handles(a + b) == Handles(a) + Handles(b)
    decreases |a|
  {
    if |a| == 0 {
      assert a + b == b;
    } else {
      assert (a + b)[0] == a[0] && (a + b)[1..] == a[1..] + b;
      HandlesAppend(a[1..], b);
      SeqAssoc([a[0].handle], Handles(a[1..]), Handles(b));
    }
  }

  lemma {:induction false} HandlesIndex(ss: seq<Settlement>, i: nat)
    requires i < |ss|
    ensures Handles(ss)[i] == ss[i].handle
    decreases i
  {
    if i > 0 {
      HandlesIndex(ss[1..], i - 1);
    }
  }

  /** The handle an operation brings into the queue, if any. */
  function OpHandles(item: Op): seq<Handle> {
    if item.InvokeOp? then [item.handle] else []
  }

  lemma QueuedHandlesSingle(item: Op)
    ensures QueuedHandles([item]) == OpHandles(item)
  {
    assert [item][1..] == [];
  }

  /** `_push` invents no promise: every handle in the new queue or among its
      settlements was in the old queue or is the incoming item's own. */
  lemma PushHandles(opts: QueueOptions, q: seq<Op>, item: Op)
    ensures var r := Push(opts, q, item);
      multiset(QueuedHandles(r.queue)) + multiset(Handles(r.settled))
        <= multiset(QueuedHandles(q)) + multiset(OpHandles(item))
  {
    var r := Push(opts, q, item);
    QueuedHandlesSingle(item);
    if !opts.enabled {
    } else if |q| >= opts.maxSize {
      if opts.dropStrategy == "oldest" {
        QueuedHandlesAppend(Shift(q), [item]);
        if |q| > 0 {
          assert QueuedHandles(q) == OpHandles(q[0]) + QueuedHandles(q[1..]);
        }
      } else if item.InvokeOp? {
        assert Handles(r.settled) == [item.handle];
      }
    } else {
      QueuedHandlesAppend(q, [item]);
    }
  }
}

=== FILE: registry.dfy ===
/**
 * The client registry (`SignalRClient`): hubs by name. Adding a hub replaces
 * any hub of the same name and starts connecting it; removing one closes it.
 */
module Registry {
  import opened Basics
  import opened Config
  import opened Session

  /** The registry's default options and its hubs by name. */
  datatype Client = Client(options: HubOptions, hubs: map<string, Hub>)

  /** `addHub(name, url, options)` up to the call of `start`, with the hub's
      options already merged. */
  function AddHub(c: Client, name: string, url: string, options: HubOptions): (r: Client)
    ensures r.hubs.Keys == c.hubs.Keys + {name}
    ensures r.hubs[name].name == name && r.hubs[name].url == url && r.hubs[name].options == options
    ensures r.hubs[name].state == Connecting && r.hubs[name].queue == []
    ensures forall n :: n in c.hubs && n != name ==> r.hubs[n] == c.hubs[n]
    ensures r.options == c.options
  {
    c.(hubs := c.hubs[name := Connect(NewHub(name, url, options))])
  }

  /** `getHub(name)`. */
  function GetHub(c: Client, name: string): (r: Option<Hub>)
    ensures r.Some? <==> name in c.hubs
    ensures r.Some? ==> r.value == c.hubs[name]
  {
    if name in c.hubs then Some(c.hubs[name]) else None
  }

  /** `listHubs()`, as a set: the key order of the object is not modelled. */
  function ListHubs(c: Client): (r: set<string>)
    ensures forall n :: n in r <==> GetHub(c, n).Some?
  {
    c.hubs.Keys
  }

  /** Something happening to the registered hub `name`: the registry holds the
      live hub, so the stored hub is the one the action leaves behind. Every
      other hub and the set of names are untouched. */
  function ApplyAt(c: Client, name: string, a: Action): (r: Client)
    ensures r.hubs.Keys == c.hubs.Keys && r.options == c.options
    ensures name in c.hubs ==> r.hubs[name] == Apply(c.hubs[name], a) && Evolves(c.hubs[name], r.hubs[name])
    ensures forall n :: n in c.hubs && n != name ==> r.hubs[n] == c.hubs[n]
    ensures name !in c.hubs ==> r == c
  {
    if name in c.hubs then c.(hubs := c.hubs[name := Apply(c.hubs[name], a)]) else c
  }

  /** `removeHub` closes the hub as it is now: after any actions applied in
      place, the closed hub carries the queue those actions left. */
  lemma RemoveClosesLiveHub(c: Client, name: string, a: Action)
    requires name in c.hubs
    ensures var live := Apply(c.hubs[name], a);
      var closed := RemoveHub(ApplyAt(c, name, a), name).closed;
      closed.Some? && closed.value.hub.queue == live.queue && closed.value.hub.settled == live.settled
  {
  }

  /** The registry after `removeHub`, and the `close()` made on the removed hub. */
  datatype RemoveResult = RemoveResult(client: Client, closed: Option<CloseResult>)

  /** `removeHub(name)`: an unknown name changes nothing. */
  function RemoveHub(c: Client, name: string): (r: RemoveResult)
    ensures r.client.hubs.Keys == c.hubs.Keys - {name}
    ensures forall n :: n in r.client.hubs ==> r.client.hubs[n] == c.hubs[n]
    ensures r.closed.Some? <==> name in c.hubs
    ensures r.closed.Some? ==> r.closed.value.hub.state == Disconnected
    ensures name !in c.hubs ==> r.client == c
  {
    if name in c.hubs then
      RemoveResult(c.(hubs := c.hubs - {name}), Some(Close(c.hubs[name])))
    else
      RemoveResult(c, None)
  }

  /** A hub just added is found under its name; a removed one is not. */
  lemma AddThenRemove(c: Client, name: string, url: string, options: HubOptions)
    ensures GetHub(AddHub(c, name, url, options), name).Some?
    ensures GetHub(RemoveHub(AddHub(c, name, url, options), name).client, name) == None
    ensures ListHubs(RemoveHub(AddHub(c, name, url, options), name).client) == ListHubs(c) - {name}
  {
  }
}

=== FILE: scenarios.dfy ===
/** Concrete runs of a hub with fixed collaborator answers. */
module Scenarios {
  import opened Basics
  import opened Config
  import opened OutboundQueue
  import opened Session

  const Up: Outcome := Ok(Undefined)

  function Options(maxSize: int, dropStrategy: string): HubOptions {
    DefaultOptions.(queue := QueueOptions(true, maxSize, dropStrategy))
  }

  /** A hub whose `start` succeeded with an empty queue. */
  function ConnectedHub(options: HubOptions): (h: Hub)
    ensures h.state == Connected && h.queue == [] && h.settled == [] && h.nextHandle == 0
  {
    StartSettled(Connect(NewHub("chat", "/hub", options)), Up, []).hub
  }

  /** maxSize 2, "oldest": sends A, B, C while disconnected leave [B, C]. */
  lemma DisplaceOldestKeepsNewest()
    ensures var h := NewHub("chat", "/hub", Options(2, "oldest"));
      var h3 := Send(Send(Send(h, "A", [], Up), "B", [], Up), "C", [], Up);
      h3.queue == [SendOp("B", []), SendOp("C", [])] && h3.delivered == [] && h3.state == Disconnected
  {
    var a, b, c := SendOp("A", []), SendOp("B", []), SendOp("C", []);
    var h := NewHub("chat", "/hub", Options(2, "oldest"));
    var h1 := Send(h, "A", [], Up);
    assert h1.queue == [a];
    var h2 := Send(h1, "B", [], Up);
    assert h2.queue == [a, b];
    SendIntoFullQueue(h2, a, b, c);
  }

  /** ... and once `start` succeeds, B and then C are delivered. */
  lemma QueuedSendsReplayInOrder(h: Hub)
    requires h.queue == [SendOp("B", []), SendOp("C", [])] && h.delivered == []
    ensures var s := StartSettled(Connect(h), Up, [Answer(Up), Answer(Up)]);
      s.thrown == None && s.hub.queue == [] && s.hub.delivered == [SendOp("B", []), SendOp("C", [])]
  {
    assert AllAnswered([Answer(Up), Answer(Up)]);
    StartReplaysQueue(Connect(h), Undefined, [Answer(Up), Answer(Up)]);
  }

  lemma SendIntoFullQueue(h: Hub, a: Op, b: Op, c: Op)
    requires h.state == Disconnected && h.options == Options(2, "oldest") && h.queue == [a, b]
    requires c.SendOp?
    ensures Send(h, c.name, c.args, Up).queue == [b, c]
  {
    PushOldestStep(h.options.queue, [a, b], c);
    assert [a, b][1..] + [c] == [b, c];
  }

  /** maxSize 1 and any strategy other than "oldest": invoke X fills the
      queue; invoke Y is rejected with "Queue full" at once and the queue
      still holds only X. */
  lemma RejectNewestRejectsInvoke(strategy: string)
    requires strategy != "oldest"
    ensures var h := NewHub("chat", "/hub", Options(1, strategy));
      var x := Invoke(h, "X", [], Up);
      var y := Invoke(x.hub, "Y", [], Up);
      && y.hub.queue == [InvokeOp("X", [], x.handle)]
      && y.hub.settled == [Rejected(y.handle, QueueFull)]
  {
  }

  /** Connected, a live invoke answered with 42 resolves with 42 and the queue
      does not grow. */
  lemma LiveInvokeResolves()
    ensures var h := ConnectedHub(DefaultOptions);
      var r := Invoke(h, "GetTime", [], Ok(Num(42.0)));
      r.hub.settled == [Resolved(r.handle, Num(42.0))] && r.hub.queue == []
  {
  }

  /** Connected, a send that fails is queued at the tail; after the connection
      drops to "reconnecting" and comes back, the drain that gets an answer
      delivers it and empties the queue. */
  lemma FailedSendIsRetried()
    ensures var h := ConnectedHub(DefaultOptions);
      var s := Send(h, "Ping", [], Failed("transport"));
      && s.queue == [SendOp("Ping", [])]
      && var down := OnReconnecting(s, None);
         && down.state == Reconnecting && down.queue == s.queue
         && var r := OnReconnected(down, Some("c2"), [Answer(Up)]);
            r.state == Connected && r.queue == [] && r.delivered == [SendOp("Ping", [])] && r.connectionId == Some("c2")
  {
    var h := ConnectedHub(DefaultOptions);
    var s := Send(h, "Ping", [], Failed("transport"));
    var down := OnReconnecting(s, None);
    assert AllAnswered([Answer(Up)]);
    OnReconnectedReplaysQueue(down, Some("c2"), [Answer(Up)]);
  }
}

=== FILE: session.dfy ===
/**
 * One hub session (`SignalRHub`): the lifecycle state machine, the routing of
 * `send`/`invoke` to the connection or into the outbound queue, and the
 * in-order drain of the queue (`_flush`).
 *
 * The connection library is an oracle. A live `send`/`invoke`/`start` takes
 * its `Outcome` as an argument; a drain takes a sequence of `Tick`s, each the
 * answer to one drained operation or the loss of the connection between two
 * drain steps. Every drain step (dequeue, attempt, settle or requeue) is one
 * atomic step.
 */
module Session {
  import opened Basics
  import opened Config
  import opened OutboundQueue

  datatype State = Disconnected | Connecting | Connected | Reconnecting

  /** What the hub reports to the registry's `clientEmit`. */
  datatype ClientEvent =
    | EmitConnected(hub: string)
    | EmitError(hub: string, failure: string)
    | EmitReconnecting(hub: string, error: Option<string>)
    | EmitReconnected(hub: string)
    | EmitDisconnected(hub: string)

  /** The settled promise of one remote call. */
  datatype Outcome = Ok(value: Value) | Failed(error: string)

  /** The next thing the connection does while the queue drains: answer the
      operation in flight, or fire `onreconnecting` (transient loss) or
      `onclose` (terminal loss). */
  datatype Tick =
    | Answer(outcome: Outcome)
    | Lost(terminal: bool, error: Option<string>)

  /**
   * The hub. `hasConn` says whether a connection object was built. `nextHandle`
   * numbers the next invoke promise. `settled` logs every `resolve`/`reject`
   * call on an invoke promise, `delivered` every remote call that succeeded,
   * and `events` every `clientEmit` call, each in order.
   */
  datatype Hub = Hub(
    name: string,
    url: string,
    options: HubOptions,
    state: State,
    connectionId: Option<string>,
    queue: seq<Op>,
    hasConn: bool,
    nextHandle: Handle,
    settled: seq<Settlement>,
    delivered: seq<Op>,
    events: seq<ClientEvent>)

  // ---------------------------------------------------------------------------
  // Invariants
  // ---------------------------------------------------------------------------

  /** Every promise handle that is still queued or has been settled, with
      multiplicity. */
  function TicketBag(h: Hub): multiset<Handle> {
    multiset(QueuedHandles(h.queue)) + multiset(Handles(h.settled))
  }

  /** Each promise is queued at most once or settled at most once, never both,
      and only handles already handed out occur. */
  predicate Inv(h: Hub) {
    && (forall t :: t in TicketBag(h) ==> TicketBag(h)[t] <= 1)
    && (forall t :: t in TicketBag(h) ==> t < h.nextHandle)
  }

  /** The queue stays within its capacity whenever the capacity is positive. */
  predicate Bounded(h: Hub) {
    h.options.queue.maxSize >= 1 ==> |h.queue| <= h.options.queue.maxSize
  }

  /** A promise that was handed out but is neither queued nor settled: an
      invoke evicted by the "oldest" strategy. */
  predicate Orphaned(h: Hub, t: Handle) {
    t < h.nextHandle && t !in TicketBag(h)
  }

  /** `after` is `before` after some drain steps: the operations delivered in
      between are exactly a prefix of the old queue, the rest is the new queue,
      and the new settlements resolve (never reject) exactly the delivered
      invokes, in the same order. */
  predicate Replayed(before: Hub, after: Hub) {
    && |before.delivered| <= |after.delivered|
    && after.delivered[..|before.delivered|] == before.delivered
    && after.delivered[|before.delivered|..] + after.queue == before.queue
    && |before.settled| <= |after.settled|
    && after.settled[..|before.settled|] == before.settled
    && Handles(after.settled[|before.settled|..]) == QueuedHandles(after.delivered[|before.delivered|..])
    && (forall k :: |before.settled| <= k < |after.settled| ==> after.settled[k].Resolved?)
  }

  /** The fields no drain step and no lifecycle callback touches. */
  /** A hub that is connecting, connected or reconnecting has a connection
      object behind it: only `connect` moves a hub out of `Disconnected`. */
  predicate Wired(h: Hub) {
    h.state != Disconnected ==> h.hasConn
  }

  predicate SameIdentity(a: Hub, b: Hub) {
    a.name == b.name && a.url == b.url && a.options == b.options && a.nextHandle == b.nextHandle
  }

  /** What every operation keeps: the options, the settlement log (only
      appended to), the invariant and the capacity bound; and a handle it
      brings in is either known before or newly handed out. */
  predicate Evolves(h: Hub, r: Hub) {
    && r.options == h.options
    && h.nextHandle <= r.nextHandle
    && |h.settled| <= |r.settled| && r.settled[..|h.settled|] == h.settled
    && (forall t :: t in TicketBag(r) ==> t in TicketBag(h) || h.nextHandle <= t)
    && (Inv(h) ==> Inv(r))
    && (Bounded(h) ==> Bounded(r))
  }

  lemma EvolvesTrans(a: Hub, b: Hub, c: Hub)
    requires Evolves(a, b) && Evolves(b, c)
    ensures Evolves(a, c)
  {
    PrefixTrans(a.settled, b.settled, c.settled);
    forall t | t in TicketBag(c)
      ensures t in TicketBag(a) || a.nextHandle <= t
    {
      assert t in TicketBag(b) || b.nextHandle <= t;
    }
  }

  /** An operation that touches neither the queue nor the settlements. */
  lemma KeepsTickets(h: Hub, r: Hub)
    requires r.queue == h.queue && r.settled == h.settled
    requires r.options == h.options && r.nextHandle == h.nextHandle
    ensures Evolves(h, r)
  {
    assert r.settled[..|h.settled|] == h.settled;
    assert TicketBag(r) == TicketBag(h);
  }

  lemma ReplayedEvolves(a: Hub, b: Hub)
    requires Replayed(a, b) && SameIdentity(a, b)
    ensures Evolves(a, b)
  {
    ReplayedKeepsTickets(a, b);
    var d := b.delivered[|a.delivered|..];
    assert |d + b.queue| == |a.queue|;
    assert TicketBag(b) == TicketBag(a) && b.nextHandle == a.nextHandle;
  }

  lemma ReplayedRefl(h: Hub)
    ensures Replayed(h, h)
  {
    assert h.delivered[..|h.delivered|] == h.delivered;
    assert h.settled[..|h.settled|] == h.settled;
    assert h.delivered[|h.delivered|..] + h.queue == h.queue;
  }

  lemma ReplayedTrans(a: Hub, b: Hub, c: Hub)
    requires Replayed(a, b) && Replayed(b, c)
    ensures Replayed(a, c)
  {
    var d1 := b.delivered[|a.delivered|..];
    var d2 := c.delivered[|b.delivered|..];
    PrefixTrans(a.delivered, b.delivered, c.delivered);
    SeqAssoc(d1, d2, c.queue);
    PrefixTrans(a.settled, b.settled, c.settled);
    HandlesAppend(b.settled[|a.settled|..], c.settled[|b.settled|..]);
    QueuedHandlesAppend(d1, d2);
  }

  /** Prefixes compose, and the part added over two extensions is the two
      added parts in order. */
  lemma PrefixTrans<T>(a: seq<T>, b: seq<T>, c: seq<T>)
    requires |a| <= |b| && b[..|a|] == a && |b| <= |c| && c[..|b|] == b
    ensures |a| <= |c| && c[..|a|] == a && c[|a|..] == b[|a|..] + c[|b|..]
  {
    assert c[..|a|] == c[..|b|][..|a|];
  }

  /** Draining moves handles from the queue to the settlements and nothing else. */
  lemma ReplayedKeepsTickets(a: Hub, b: Hub)
    requires Replayed(a, b)
    ensures TicketBag(b) == TicketBag(a)
  {
    var d := b.delivered[|a.delivered|..];
    var s := b.settled[|a.settled|..];
    QueuedHandlesAppend(d, b.queue);
    PrefixSplit(a.settled, b.settled);
    HandlesAppend(a.settled, s);
    BagMove(multiset(QueuedHandles(a.queue)), multiset(QueuedHandles(b.queue)),
            multiset(Handles(a.settled)), multiset(Handles(b.settled)), multiset(QueuedHandles(d)));
  }

  lemma PrefixSplit<T>(a: seq<T>, b: seq<T>)
    requires |a| <= |b| && b[..|a|] == a
    ensures b == a + b[|a|..]
  {
    assert b == b[..|a|] + b[|a|..];
  }

  lemma BagMove(qa: multiset<Handle>, qb: multiset<Handle>, sa: multiset<Handle>, sb: multiset<Handle>, moved: multiset<Handle>)
    requires qa == moved + qb && sb == sa + moved
    ensures qb + sb == qa + sa
  {
  }

  /** Under the invariant, no promise is settled twice, and no queued invoke's
      promise has been settled yet. */
  lemma SettledAtMostOnce(h: Hub)
    requires Inv(h)
    ensures forall i, j :: 0 <= i < j < |h.settled| ==> h.settled[i].handle != h.settled[j].handle
    ensures forall t :: t in QueuedHandles(h.queue) ==> t !in Handles(h.settled)
  {
    var hs := Handles(h.settled);
    forall i, j | 0 <= i < j < |h.settled|
      ensures h.settled[i].handle != h.settled[j].handle
    {
      HandlesIndex(h.settled, i);
      HandlesIndex(h.settled, j);
      assert hs[i] in multiset(hs);
      assert multiset(hs)[hs[i]] <= TicketBag(h)[hs[i]];
      CountedOnce(hs, i, j);
    }
    forall t | t in QueuedHandles(h.queue)
      ensures t !in hs
    {
      assert t in TicketBag(h);
      assert multiset(hs)[t] == 0;
    }
  }

  /** In a sequence holding `s[i]` at most once, no later position repeats it. */
  lemma CountedOnce(s: seq<Handle>, i: nat, j: nat)
    requires i < j < |s| && multiset(s)[s[i]] <= 1
    ensures s[i] != s[j]
  {
    assert s == s[..i] + [s[i]] + s[i + 1..j] + [s[j]] + s[j + 1..];
  }

  // ---------------------------------------------------------------------------
  // Construction and lifecycle
  // ---------------------------------------------------------------------------

  /** `new SignalRHub(name, url, options)`, with the options already merged. */
  function NewHub(name: string, url: string, options: HubOptions): (h: Hub)
    ensures h.state == Disconnected && h.connectionId == None && !h.hasConn
    ensures h.queue == [] && h.settled == [] && h.delivered == []
    ensures Inv(h) && Bounded(h) && Wired(h)
  {
    Hub(name, url, options, Disconnected, None, [], false, 0, [], [], [])
  }

  /** `connect`, up to the call of `start`: the state becomes "connecting" and a
      fresh connection object is built. */
  function Connect(h: Hub): (r: Hub)
    ensures r.state == Connecting && r.hasConn
    ensures r.queue == h.queue && r.settled == h.settled && r.delivered == h.delivered
    ensures r.connectionId == h.connectionId && SameIdentity(h, r)
    ensures Evolves(h, r)
  {
    var r := h.(state := Connecting, hasConn := true);
    KeepsTickets(h, r);
    r
  }

  /** The promise `connect` returns, and the error it rethrows if any. */
  datatype StartResult = StartResult(hub: Hub, thrown: Option<string>)

  /** The settling of `start()`. Success moves to "connected", emits
      `connected` and drains the queue; it does not record a connection id.
      Failure moves to "disconnected", emits `error` and rethrows. */
  function StartSettled(h: Hub, outcome: Outcome, ticks: seq<Tick>): (r: StartResult)
    ensures outcome.Failed? ==>
      && r.thrown == Some(outcome.error)
      && r.hub.state == Disconnected
      && r.hub.queue == h.queue && r.hub.settled == h.settled
      && r.hub.events == h.events + [EmitError(h.name, outcome.error)]
    ensures outcome.Ok? ==>
      && r.thrown == None
      && r.hub.state in {Connected, Reconnecting, Disconnected}
      && (NoLoss(ticks) ==> r.hub.state == Connected)
      && |r.hub.events| > |h.events| && r.hub.events[|h.events|] == EmitConnected(h.name)
      && Replayed(h, r.hub)
    ensures r.hub.connectionId == h.connectionId && r.hub.hasConn == h.hasConn && SameIdentity(h, r.hub)
    ensures Evolves(h, r.hub)
  {
    match outcome
    case Failed(e) =>
      var down := h.(state := Disconnected, events := h.events + [EmitError(h.name, e)]);
      KeepsTickets(h, down);
      StartResult(down, Some(e))
    case Ok(_) =>
      var up := h.(state := Connected, events := h.events + [EmitConnected(h.name)]);
      var r := Flush(up, ticks);
      FlushAfter(h, up, ticks);
      StartResult(r, None)
  }

  /** Entering "connected" with one more event and then draining. */
  lemma FlushAfter(h: Hub, up: Hub, ticks: seq<Tick>)
    requires up.queue == h.queue && up.settled == h.settled && up.delivered == h.delivered
    requires SameIdentity(h, up) && |up.events| == |h.events| + 1
    ensures var r := Flush(up, ticks);
      && Replayed(h, r) && Evolves(h, r) && SameIdentity(h, r)
      && r.connectionId == up.connectionId && r.hasConn == up.hasConn
      && |r.events| > |h.events| && r.events[|h.events|] == up.events[|h.events|]
  {
    ReplayedRefl(h);
    assert Replayed(h, up);
    var r := Flush(up, ticks);
    assert r.events[|h.events|] == r.events[..|up.events|][|h.events|];
    ReplayedTrans(h, up, r);
    ReplayedEvolves(h, r);
  }

  /** `onreconnecting`: the state becomes "reconnecting"; the queue is kept. */
  function OnReconnecting(h: Hub, error: Option<string>): (r: Hub)
    ensures r.state == Reconnecting
    ensures r.events == h.events + [EmitReconnecting(h.name, error)]
    ensures r.queue == h.queue && r.settled == h.settled && r.delivered == h.delivered
    ensures r.connectionId == h.connectionId && r.hasConn == h.hasConn && SameIdentity(h, r)
    ensures Evolves(h, r)
  {
    var r := h.(state := Reconnecting, events := h.events + [EmitReconnecting(h.name, error)]);
    KeepsTickets(h, r);
    r
  }

  /** `onreconnected(cid)`: the state becomes "connected", the new connection id
      is stored and the queue drains. */
  function OnReconnected(h: Hub, cid: Option<string>, ticks: seq<Tick>): (r: Hub)
    ensures r.connectionId == cid
    ensures r.state in {Connected, Reconnecting, Disconnected}
    ensures NoLoss(ticks) ==> r.state == Connected
    ensures |r.events| > |h.events| && r.events[|h.events|] == EmitReconnected(h.name)
    ensures Replayed(h, r) && SameIdentity(h, r) && r.hasConn == h.hasConn
    ensures Evolves(h, r)
  {
    var up := h.(state := Connected, connectionId := cid, events := h.events + [EmitReconnected(h.name)]);
    var r := Flush(up, ticks);
    FlushAfter(h, up, ticks);
    r
  }

  /** `onclose`: the state becomes "disconnected". The connection id is kept. */
  function OnClose(h: Hub, error: Option<string>): (r: Hub)
    ensures r.state == Disconnected
    ensures r.events == h.events + [EmitDisconnected(h.name)]
    ensures r.queue == h.queue && r.settled == h.settled && r.delivered == h.delivered
    ensures r.connectionId == h.connectionId && r.hasConn == h.hasConn && SameIdentity(h, r)
    ensures Evolves(h, r)
  {
    var r := h.(state := Disconnected, events := h.events + [EmitDisconnected(h.name)]);
    KeepsTickets(h, r);
    r
  }

  /** The hub after `close()`, and whether `stop()` was called on a connection. */
  datatype CloseResult = CloseResult(hub: Hub, stopped: bool)

  /** `close()`: the state becomes "disconnected" whatever it was; the queue
      and pending promises are left as they are. */
  function Close(h: Hub): (r: CloseResult)
    ensures r.hub.state == Disconnected
    ensures r.stopped <==> h.hasConn
    ensures r.hub.queue == h.queue && r.hub.settled == h.settled && r.hub.delivered == h.delivered
    ensures r.hub.events == h.events && r.hub.connectionId == h.connectionId && SameIdentity(h, r.hub)
    ensures Evolves(h, r.hub)
  {
    var down := h.(state := Disconnected);
    KeepsTickets(h, down);
    CloseResult(down, h.hasConn)
  }

  // ---------------------------------------------------------------------------
  // send / invoke
  // ---------------------------------------------------------------------------

  /** `_push` applied to the hub's queue, logging any rejection it makes. */
  function Enqueue(h: Hub, item: Op): (r: Hub)
    ensures var p := Push(h.options.queue, h.queue, item);
      r.queue == p.queue && r.settled == h.settled + p.settled
    ensures r.state == h.state && r.delivered == h.delivered && r.events == h.events
    ensures r.connectionId == h.connectionId && r.hasConn == h.hasConn && SameIdentity(h, r)
    ensures TicketBag(r) <= TicketBag(h) + multiset(OpHandles(item))
    ensures Bounded(h) ==> Bounded(r)
  {
    var p := Push(h.options.queue, h.queue, item);
    var r := h.(queue := p.queue, settled := h.settled + p.settled);
    EnqueueTickets(h, item, r);
    if h.options.queue.maxSize >= 1 && |h.queue| <= h.options.queue.maxSize then
      PushKeepsBound(h.options.queue, h.queue, item);
      r
    else
      r
  }

  lemma EnqueueTickets(h: Hub, item: Op, r: Hub)
    requires var p := Push(h.options.queue, h.queue, item);
      r.queue == p.queue && r.settled == h.settled + p.settled
    ensures TicketBag(r) <= TicketBag(h) + multiset(OpHandles(item))
  {
    var p := Push(h.options.queue, h.queue, item);
    PushHandles(h.options.queue, h.queue, item);
    HandlesAppend(h.settled, p.settled);
    assert multiset(Handles(r.settled)) == multiset(Handles(h.settled)) + multiset(Handles(p.settled));
    BagArith(multiset(QueuedHandles(r.queue)), multiset(Handles(h.settled)), multiset(Handles(p.settled)),
             multiset(QueuedHandles(h.queue)), multiset(OpHandles(item)));
  }

  lemma BagArith(a: multiset<Handle>, b: multiset<Handle>, c: multiset<Handle>, q: multiset<Handle>, i: multiset<Handle>)
    requires a + c <= q + i
    ensures a + (b + c) <= (q + b) + i
  {
    assert a + (b + c) == (a + c) + b;
    assert (q + b) + i == (q + i) + b;
  }

  /** `send(method, ...args)`. Connected: the call goes straight to the
      connection, and only a failed call is queued. Otherwise it is queued.
      The returned promise always resolves, so there is nothing to return. */
  function Send(h: Hub, name: string, args: seq<Value>, outcome: Outcome): (r: Hub)
    ensures h.state == Connected && outcome.Ok? ==>
      r.queue == h.queue && r.delivered == h.delivered + [SendOp(name, args)]
    ensures h.state != Connected || outcome.Failed? ==>
      r.queue == Push(h.options.queue, h.queue, SendOp(name, args)).queue && r.delivered == h.delivered
    ensures r.settled == h.settled && r.state == h.state && r.events == h.events
    ensures r.connectionId == h.connectionId && r.hasConn == h.hasConn && SameIdentity(h, r)
    ensures Evolves(h, r)
  {
    var op := SendOp(name, args);
    if h.state == Connected && outcome.Ok? then
      var r := h.(delivered := h.delivered + [op]);
      KeepsTickets(h, r);
      r
    else
      var r := Enqueue(h, op);
      assert Push(h.options.queue, h.queue, op).settled == [];
      assert r.settled == h.settled;
      assert multiset(OpHandles(op)) == multiset{};
      assert TicketBag(r) <= TicketBag(h);
      KeepsOrShrinks(h, r);
      r
  }

  /** An operation that only removes tickets. */
  lemma KeepsOrShrinks(h: Hub, r: Hub)
    requires TicketBag(r) <= TicketBag(h) && r.settled == h.settled
    requires r.options == h.options && r.nextHandle == h.nextHandle
    requires Bounded(h) ==> Bounded(r)
    ensures Evolves(h, r)
  {
    assert r.settled[..|h.settled|] == h.settled;
  }

  /** The hub after `invoke`, and the handle of the promise returned. */
  datatype InvokeResult = InvokeResult(hub: Hub, handle: Handle)

  /** `invoke(method, ...args)`. A fresh promise is handed out. Connected and
      answered: it resolves with the remote result. Otherwise (not connected,
      or the live call failed) it is queued, to settle when drained or to be
      rejected at once if the queue refuses it. */
  function Invoke(h: Hub, name: string, args: seq<Value>, outcome: Outcome): (r: InvokeResult)
    ensures r.handle == h.nextHandle && r.hub.nextHandle == h.nextHandle + 1
    ensures h.state == Connected && outcome.Ok? ==>
      && r.hub.queue == h.queue
      && r.hub.delivered == h.delivered + [InvokeOp(name, args, r.handle)]
      && r.hub.settled == h.settled + [Resolved(r.handle, outcome.value)]
    ensures h.state != Connected || outcome.Failed? ==>
      var p := Push(h.options.queue, h.queue, InvokeOp(name, args, r.handle));
      r.hub.queue == p.queue && r.hub.settled == h.settled + p.settled && r.hub.delivered == h.delivered
    ensures r.hub.state == h.state && r.hub.events == h.events && r.hub.connectionId == h.connectionId
    ensures r.hub.hasConn == h.hasConn && r.hub.name == h.name && r.hub.url == h.url
    ensures Evolves(h, r.hub)
  {
    var t := h.nextHandle;
    var op := InvokeOp(name, args, t);
    var h1 := h.(nextHandle := t + 1);
    assert TicketBag(h1) == TicketBag(h);
    if h.state == Connected && outcome.Ok? then
      var r := h1.(delivered := h.delivered + [op], settled := h.settled + [Resolved(t, outcome.value)]);
      HandlesAppend(h.settled, [Resolved(t, outcome.value)]);
      assert TicketBag(r) == TicketBag(h) + multiset{t};
      FreshTicket(h, r, t);
      InvokeResult(r, t)
    else
      var r := Enqueue(h1, op);
      assert multiset(OpHandles(op)) == multiset{t};
      FreshTicket(h, r, t);
      InvokeResult(r, t)
  }

  /** Adding the one freshly handed-out handle keeps the invariant. */
  lemma FreshTicket(h: Hub, r: Hub, t: Handle)
    requires t == h.nextHandle && r.nextHandle == t + 1 && r.options == h.options
    requires TicketBag(r) <= TicketBag(h) + multiset{t}
    requires |h.settled| <= |r.settled| && r.settled[..|h.settled|] == h.settled
    requires Bounded(h) ==> Bounded(r)
    ensures Evolves(h, r)
  {
    if Inv(h) {
      assert t !in TicketBag(h);
      forall x | x in TicketBag(r)
        ensures TicketBag(r)[x] <= 1 && x < r.nextHandle
      {
        assert TicketBag(r)[x] <= TicketBag(h)[x] + multiset{t}[x];
      }
    }
  }

  // ---------------------------------------------------------------------------
  // _flush
  // ---------------------------------------------------------------------------

  /** One drain step on a non-empty queue: the head is taken off and attempted.
      On success it stays removed and an invoke's promise resolves with the
      remote result; on failure it is put back at the head. */
  function DrainStep(h: Hub, outcome: Outcome): (r: Hub)
    requires |h.queue| > 0
    ensures outcome.Ok? ==>
      && r.queue == h.queue[1..]
      && r.delivered == h.delivered + [h.queue[0]]
      && (h.queue[0].InvokeOp? ==> r.settled == h.settled + [Resolved(h.queue[0].handle, outcome.value)])
      && (h.queue[0].SendOp? ==> r.settled == h.settled)
    ensures outcome.Failed? ==> r == h
    ensures r.state == h.state && r.hasConn == h.hasConn
    ensures Replayed(h, r)
  {
    var item := h.queue[0];
    var rest := h.queue[1..];
    match outcome
    case Ok(v) =>
      var r := h.(queue := rest,
                  delivered := h.delivered + [item],
                  settled := h.settled + (if item.InvokeOp? then [Resolved(item.handle, v)] else []));
      assert r.delivered[|h.delivered|..] == [item];
      assert r.delivered[..|h.delivered|] == h.delivered;
      assert r.settled[..|h.settled|] == h.settled;
      assert r.settled[|h.settled|..] == (if item.InvokeOp? then [Resolved(item.handle, v)] else []);
      QueuedHandlesSingle(item);
      r
    case Failed(_) =>
      assert [item] + rest == h.queue;
      ReplayedRefl(h);
      h.(queue := [item] + rest)
  }

  /**
   * `_flush`: nothing unless connected. Then, before each step, the state and
   * the queue are checked again, and the drain stops, leaving the rest
   * queued, once the hub is no longer connected or the queue is empty. A
   * failed step does not end the drain: the same head is attempted again.
   */
  function Flush(h: Hub, ticks: seq<Tick>): (r: Hub)
    ensures h.state != Connected ==> r == h
    ensures Replayed(h, r) && SameIdentity(h, r) && r.connectionId == h.connectionId && r.hasConn == h.hasConn
    ensures TicketBag(r) == TicketBag(h)
    ensures r.state == h.state || (h.state == Connected && r.state in {Reconnecting, Disconnected})
    ensures h.state == Connected && NoLoss(ticks) ==> r.state == Connected
    ensures |r.events| >= |h.events| && r.events[..|h.events|] == h.events
    decreases |ticks|
  {
    if h.state != Connected || |h.queue| == 0 || |ticks| == 0 then
      ReplayedRefl(h);
      assert h.events[..|h.events|] == h.events;
      h
    else
      match ticks[0]
      case Lost(terminal, error) =>
        ReplayedRefl(h);
        var r := if terminal then OnClose(h, error) else OnReconnecting(h, error);
        assert r.events[..|h.events|] == h.events;
        r
      case Answer(outcome) =>
        var next := DrainStep(h, outcome);
        NoLossTail(ticks);
        var r := Flush(next, ticks[1..]);
        ReplayedTrans(h, next, r);
        ReplayedKeepsTickets(h, r);
        assert r.events[..|h.events|] == next.events[..|h.events|];
        r
  }

  /** The drain loop itself, one tick per iteration. */
  method DrainLoop(h: Hub, ticks: seq<Tick>) returns (r: Hub)
    ensures r == Flush(h, ticks)
    ensures Replayed(h, r)
  {
    r := h;
    ReplayedRefl(h);
    var i := 0;
    while i < |ticks| && r.state == Connected && |r.queue| > 0
      invariant 0 <= i <= |ticks|
      invariant Flush(r, ticks[i..]) == Flush(h, ticks)
      invariant Replayed(h, r)
      decreases |ticks| - i
    {
      FlushUnfold(r, ticks[i..]);
      assert ticks[i..][0] == ticks[i] && ticks[i..][1..] == ticks[i + 1..];
      match ticks[i] {
        case Lost(terminal, error) =>
          r := if terminal then OnClose(r, error) else OnReconnecting(r, error);
        case Answer(outcome) =>
          var next := DrainStep(r, outcome);
          ReplayedTrans(h, r, next);
          r := next;
      }
      i := i + 1;
    }
  }

  /** One round of `_flush`'s loop: a loss ends it, an answer settles or
      requeues the head and the loop goes on. */
  lemma FlushUnfold(h: Hub, ticks: seq<Tick>)
    requires h.state == Connected && |h.queue| > 0 && |ticks| > 0
    ensures ticks[0].Lost? && ticks[0].terminal ==> Flush(h, ticks) == OnClose(h, ticks[0].error)
    ensures ticks[0].Lost? && !ticks[0].terminal ==> Flush(h, ticks) == OnReconnecting(h, ticks[0].error)
    ensures ticks[0].Answer? ==> Flush(h, ticks) == Flush(DrainStep(h, ticks[0].outcome), ticks[1..])
  {
  }

  /** A failed drain step leaves the hub exactly as before: the next tick is
      spent on the same head, in the same state. */
  lemma FailedStepRetriesHead(h: Hub, error: string, ticks: seq<Tick>)
    requires h.state == Connected && |h.queue| > 0
    ensures Flush(h, [Answer(Failed(error))] + ticks) == Flush(h, ticks)
  {
    var all := [Answer(Failed(error))] + ticks;
    assert all[0] == Answer(Failed(error)) && all[1..] == ticks;
    assert DrainStep(h, Failed(error)) == h;
  }

  /** The connection stays up throughout: every tick answers a drain step. */
  predicate NoLoss(ticks: seq<Tick>) {
    forall k :: 0 <= k < |ticks| ==> ticks[k].Answer?
  }

  lemma NoLossTail(ticks: seq<Tick>)
    requires |ticks| > 0
    ensures NoLoss(ticks) ==> NoLoss(ticks[1..])
  {
    if NoLoss(ticks) {
      forall k | 0 <= k < |ticks| - 1
        ensures ticks[1..][k].Answer?
      {
        assert ticks[1..][k] == ticks[k + 1];
      }
    }
  }

  predicate AllAnswered(ticks: seq<Tick>) {
    forall k :: 0 <= k < |ticks| ==> ticks[k].Answer? && ticks[k].outcome.Ok?
  }

  /** With as many successful answers as queued operations and no loss, the
      whole queue is delivered in FIFO order and every queued invoke resolves,
      in queue order. */
  lemma {:induction false} FlushDrainsInOrder(h: Hub, ticks: seq<Tick>)
    requires h.state == Connected && AllAnswered(ticks) && |ticks| >= |h.queue|
    ensures var r := Flush(h, ticks);
      && r.state == Connected && r.queue == []
      && r.delivered == h.delivered + h.queue
      && Handles(r.settled) == Handles(h.settled) + QueuedHandles(h.queue)
      && (forall k :: |h.settled| <= k < |r.settled| ==> r.settled[k].Resolved?)
    decreases |ticks|
  {
    if |h.queue| == 0 {
      assert h.delivered + h.queue == h.delivered;
      assert Handles(h.settled) + QueuedHandles(h.queue) == Handles(h.settled);
    } else {
      var v := ticks[0].outcome.value;
      var next := DrainStep(h, Ok(v));
      FlushUnfold(h, ticks);
      assert Flush(h, ticks) == Flush(next, ticks[1..]);
      assert AllAnswered(ticks[1..]) by {
        forall k | 0 <= k < |ticks[1..]|
          ensures ticks[1..][k].Answer? && ticks[1..][k].outcome.Ok?
        {
          assert ticks[1..][k] == ticks[k + 1];
        }
      }
      FlushDrainsInOrder(next, ticks[1..]);
      DrainStepHandles(h, v);
      ComposeDrain(h.delivered, h.settled, h.queue, next.delivered, next.settled, Flush(next, ticks[1..]));
    }
  }

  /** Delivering the head and then the rest delivers the whole queue. */
  lemma ComposeDrain(delivered: seq<Op>, settled: seq<Settlement>, q: seq<Op>,
                     midDelivered: seq<Op>, midSettled: seq<Settlement>, r: Hub)
    requires |q| > 0
    requires midDelivered == delivered + [q[0]]
    requires Handles(midSettled) == Handles(settled) + OpHandles(q[0])
    requires r.delivered == midDelivered + q[1..]
    requires Handles(r.settled) == Handles(midSettled) + QueuedHandles(q[1..])
    ensures r.delivered == delivered + q
    ensures Handles(r.settled) == Handles(settled) + QueuedHandles(q)
  {
    ConcatHead(delivered, q, midDelivered, r.delivered);
    ConcatHeadHandles(Handles(settled), q, Handles(midSettled), Handles(r.settled));
  }

  lemma ConcatHead(prefix: seq<Op>, q: seq<Op>, mid: seq<Op>, whole: seq<Op>)
    requires |q| > 0 && mid == prefix + [q[0]] && whole == mid + q[1..]
    ensures whole == prefix + q
  {
    assert [q[0]] + q[1..] == q;
  }

  lemma ConcatHeadHandles(prefix: seq<Handle>, q: seq<Op>, mid: seq<Handle>, whole: seq<Handle>)
    requires |q| > 0 && mid == prefix + OpHandles(q[0]) && whole == mid + QueuedHandles(q[1..])
    ensures whole == prefix + QueuedHandles(q)
  {
    QueuedHandlesCons(q);
    SeqAssoc(prefix, OpHandles(q[0]), QueuedHandles(q[1..]));
  }

  /** Operations queued while disconnected are issued, once `start` succeeds
      and the connection answers each of them, in the order they were queued,
      and each queued invoke resolves. */
  lemma StartReplaysQueue(h: Hub, v: Value, ticks: seq<Tick>)
    requires AllAnswered(ticks) && |ticks| >= |h.queue|
    ensures var r := StartSettled(h, Ok(v), ticks);
      && r.thrown == None && r.hub.state == Connected && r.hub.queue == []
      && r.hub.delivered == h.delivered + h.queue
      && Handles(r.hub.settled) == Handles(h.settled) + QueuedHandles(h.queue)
      && (forall k :: |h.settled| <= k < |r.hub.settled| ==> r.hub.settled[k].Resolved?)
  {
    FlushDrainsInOrder(h.(state := Connected, events := h.events + [EmitConnected(h.name)]), ticks);
  }

  /** Once the connection is re-established and answers every queued item,
      the operations queued meanwhile are issued in the order they were
      queued, each queued invoke resolves, and the new connection id is kept. */
  lemma OnReconnectedReplaysQueue(h: Hub, cid: Option<string>, ticks: seq<Tick>)
    requires AllAnswered(ticks) && |ticks| >= |h.queue|
    ensures var r := OnReconnected(h, cid, ticks);
      && r.state == Connected && r.queue == [] && r.connectionId == cid
      && r.delivered == h.delivered + h.queue
      && Handles(r.settled) == Handles(h.settled) + QueuedHandles(h.queue)
      && (forall k :: |h.settled| <= k < |r.settled| ==> r.settled[k].Resolved?)
  {
    FlushDrainsInOrder(h.(state := Connected, connectionId := cid, events := h.events + [EmitReconnected(h.name)]), ticks);
  }

  /** A successful drain step settles exactly the head's promise, if it has one. */
  lemma DrainStepHandles(h: Hub, v: Value)
    requires |h.queue| > 0
    ensures Handles(DrainStep(h, Ok(v)).settled) == Handles(h.settled) + OpHandles(h.queue[0])
  {
    var r := DrainStep(h, Ok(v));
    var item := h.queue[0];
    if item.InvokeOp? {
      HandlesAppend(h.settled, [Resolved(item.handle, v)]);
    }
  }

  // ---------------------------------------------------------------------------
  // Any sequence of events
  // ---------------------------------------------------------------------------

  /** Everything that can happen to a hub. */
  datatype Action =
    | DoConnect
    | StartDone(outcome: Outcome, ticks: seq<Tick>)
    | DoSend(name: string, args: seq<Value>, outcome: Outcome)
    | DoInvoke(name: string, args: seq<Value>, outcome: Outcome)
    | ReconnectingCb(error: Option<string>)
    | ReconnectedCb(cid: Option<string>, ticks: seq<Tick>)
    | CloseCb(error: Option<string>)
    | DoClose

  /** The actions that the connection object itself raises: the settling of
      its `start()` promise and its three lifecycle callbacks. */
  predicate FromConnection(a: Action) {
    a.StartDone? || a.ReconnectingCb? || a.ReconnectedCb? || a.CloseCb?
  }

  function Apply(h: Hub, a: Action): (r: Hub)
    ensures Evolves(h, r)
    ensures !a.ReconnectedCb? ==> r.connectionId == h.connectionId
    ensures Wired(h) ==> Wired(r)
    ensures !h.hasConn && FromConnection(a) ==> r == h
  {
    if !h.hasConn && FromConnection(a) then
      // nothing fires before `connect` has created a connection object
      KeepsTickets(h, h);
      h
    else
      match a
      case DoConnect => Connect(h)
      case StartDone(o, ticks) => StartSettled(h, o, ticks).hub
      case DoSend(n, args, o) => Send(h, n, args, o)
      case DoInvoke(n, args, o) => Invoke(h, n, args, o).hub
      case ReconnectingCb(e) => OnReconnecting(h, e)
      case ReconnectedCb(cid, ticks) => OnReconnected(h, cid, ticks)
      case CloseCb(e) => OnClose(h, e)
      case DoClose => Close(h).hub
  }


  /** The hub after a whole run of actions. Along any run the invariant and a
      positive capacity bound hold, settlements are never retracted, and an
      orphaned promise stays orphaned. */
  function Run(h: Hub, actions: seq<Action>): (r: Hub)
    ensures Evolves(h, r)
    ensures forall t :: Orphaned(h, t) ==> Orphaned(r, t)
    ensures NoReconnect(actions) ==> r.connectionId == h.connectionId
    ensures Wired(h) ==> Wired(r)
    decreases |actions|
  {
    if |actions| == 0 then
      KeepsTickets(h, h);
      h
    else
      var mid := Apply(h, actions[0]);
      NoReconnectTail(actions);
      var r := Run(mid, actions[1..]);
      EvolvesTrans(h, mid, r);
      r
  }

  /** No `onreconnected` fires during the run. */
  predicate NoReconnect(actions: seq<Action>) {
    forall k :: 0 <= k < |actions| ==> !actions[k].ReconnectedCb?
  }

  lemma NoReconnectTail(actions: seq<Action>)
    requires |actions| > 0
    ensures NoReconnect(actions) ==> !actions[0].ReconnectedCb? && NoReconnect(actions[1..])
  {
    if NoReconnect(actions) {
      forall k | 0 <= k < |actions| - 1
        ensures !actions[1..][k].ReconnectedCb?
      {
        assert actions[1..][k] == actions[k + 1];
      }
    }
  }

  /** Running `acts` and then `a` is running `acts + [a]`. */
  lemma {:induction false} RunSnoc(h: Hub, acts: seq<Action>, a: Action)
    ensures Run(h, acts + [a]) == Apply(Run(h, acts), a)
    decreases |acts|
  {
    if |acts| == 0 {
      assert acts + [a] == [a];
      assert [a][1..] == [];
    } else {
      assert (acts + [a])[0] == acts[0];
      assert (acts + [a])[1..] == acts[1..] + [a];
      RunSnoc(Apply(h, acts[0]), acts[1..], a);
    }
  }

  /** From a fresh hub, along any run of actions, no invoke promise is
      settled twice and a positive queue capacity is never exceeded. */
  lemma RunSettlesAtMostOnce(name: string, url: string, options: HubOptions, actions: seq<Action>)
    ensures var r := Run(NewHub(name, url, options), actions);
      && (forall i, j :: 0 <= i < j < |r.settled| ==> r.settled[i].handle != r.settled[j].handle)
      && (options.queue.maxSize >= 1 ==> |r.queue| <= options.queue.maxSize)
      && (r.state != Disconnected ==> r.hasConn)
  {
    var r := Run(NewHub(name, url, options), actions);
    SettledAtMostOnce(r);
  }

  /** An operation that reaches `_push`: a send or an invoke made while not
      connected, or whose live call failed. */
  predicate Pushes(h: Hub, a: Action) {
    (a.DoSend? || a.DoInvoke?) && (h.state != Connected || a.outcome.Failed?)
  }

  /** The operation `a` brings to `_push`. */
  function PushedOp(h: Hub, a: Action): Op
    requires a.DoSend? || a.DoInvoke?
  {
    CallOp(a, h.nextHandle)
  }

  /** The operation a send or invoke call becomes, an invoke holding handle `t`. */
  function CallOp(a: Action, t: Handle): Op
    requires a.DoSend? || a.DoInvoke?
  {
    if a.DoSend? then SendOp(a.name, a.args) else InvokeOp(a.name, a.args, t)
  }

  /** An invoke displaced from the head by the "oldest" strategy, whichever
      send or invoke displaced it, is never settled, whatever happens
      afterwards: its caller's promise stays pending forever. */
  lemma EvictedInvokeNeverSettles(h: Hub, a: Action, later: seq<Action>)
    requires Inv(h) && Pushes(h, a)
    requires h.options.queue.enabled && h.options.queue.dropStrategy == "oldest"
    requires |h.queue| >= h.options.queue.maxSize && |h.queue| > 0 && h.queue[0].InvokeOp?
    ensures var r := Run(Apply(h, a), later);
      h.queue[0].handle !in Handles(r.settled) && h.queue[0].handle !in QueuedHandles(r.queue)
  {
    var s := Apply(h, a);
    ApplyPushes(h, a);
    EvictionOrphans(h, s, PushedOp(h, a));
    OrphanStaysPending(s, h.queue[0].handle, later);
  }

  /** An orphaned promise is neither queued nor settled after any run. */
  lemma OrphanStaysPending(s: Hub, t: Handle, later: seq<Action>)
    requires Orphaned(s, t)
    ensures var r := Run(s, later);
      t !in Handles(r.settled) && t !in QueuedHandles(r.queue)
  {
    var r := Run(s, later);
    assert Orphaned(r, t);
  }

  /** The hub `s` after `op` displaced the head invoke of a full queue no
      longer knows that invoke's promise. */
  lemma EvictionOrphans(h: Hub, s: Hub, op: Op)
    requires Inv(h) && h.options.queue.enabled && h.options.queue.dropStrategy == "oldest"
    requires |h.queue| >= h.options.queue.maxSize && |h.queue| > 0 && h.queue[0].InvokeOp?
    requires op.InvokeOp? ==> op.handle == h.nextHandle
    requires var p := Push(h.options.queue, h.queue, op);
      s.queue == p.queue && s.settled == h.settled + p.settled && h.nextHandle <= s.nextHandle
    ensures Orphaned(s, h.queue[0].handle)
  {
    var t := h.queue[0].handle;
    PushEvictsHead(h.options.queue, h.queue, op);
    assert s.settled == h.settled;
    EvictHead(h, s, op);
    assert t in TicketBag(h);
    OnlyTicketLeaves(TicketBag(h), multiset(OpHandles(op)), TicketBag(s), t);
  }


  /** A send or invoke that reaches `_push` leaves the hub's queue and
      settlements as the push makes them. */
  lemma ApplyPushes(h: Hub, a: Action)
    requires Pushes(h, a)
    ensures var p := Push(h.options.queue, h.queue, PushedOp(h, a));
      Apply(h, a).queue == p.queue && Apply(h, a).settled == h.settled + p.settled
    ensures Apply(h, a).state == h.state && Apply(h, a).delivered == h.delivered
    ensures Apply(h, a).nextHandle == h.nextHandle + (if a.DoInvoke? then 1 else 0)
  {
    assert !FromConnection(a);
    if a.DoSend? {
      assert Apply(h, a) == Send(h, a.name, a.args, a.outcome);
      assert Push(h.options.queue, h.queue, SendOp(a.name, a.args)).settled == [];
    } else {
      assert Apply(h, a) == Invoke(h, a.name, a.args, a.outcome).hub;
    }
  }

  /** Evicting the head invoke for `op` swaps its ticket for `op`'s own. */
  lemma EvictHead(h: Hub, s: Hub, op: Op)
    requires |h.queue| > 0 && h.queue[0].InvokeOp?
    requires s.queue == h.queue[1..] + [op] && s.settled == h.settled
    ensures TicketBag(h) + multiset(OpHandles(op)) == multiset{h.queue[0].handle} + TicketBag(s)
  {
    QueuedHandlesAppend(h.queue[1..], [op]);
    QueuedHandlesSingle(op);
    QueuedHandlesCons(h.queue);
    var rest := multiset(QueuedHandles(h.queue[1..]));
    var own := multiset(OpHandles(op));
    var done := multiset(Handles(h.settled));
    assert TicketBag(h) == (multiset{h.queue[0].handle} + rest) + done;
    assert TicketBag(s) == (rest + own) + done;
  }

  lemma OnlyTicketLeaves(before: multiset<Handle>, extra: multiset<Handle>, after: multiset<Handle>, t: Handle)
    requires before + extra == multiset{t} + after && before[t] <= 1 && t !in extra
    ensures t !in after
  {
    assert (before + extra)[t] == before[t] + extra[t];
    assert (multiset{t} + after)[t] == 1 + after[t];
  }

  /** With queueing disabled, an invoke made while not connected, or whose
      live call failed, is dropped by `_push` without its promise being
      rejected: it is never settled. */
  lemma DroppedInvokeNeverSettles(h: Hub, name: string, args: seq<Value>, outcome: Outcome, later: seq<Action>)
    requires Inv(h) && !h.options.queue.enabled && (h.state != Connected || outcome.Failed?)
    ensures var i := Invoke(h, name, args, outcome);
      var r := Run(i.hub, later);
      i.handle !in Handles(r.settled) && i.handle !in QueuedHandles(r.queue)
  {
    var i := Invoke(h, name, args, outcome);
    assert i.hub.queue == h.queue && i.hub.settled == h.settled;
    assert TicketBag(i.hub) == TicketBag(h);
    OrphanStaysPending(i.hub, i.handle, later);
  }

  // ---------------------------------------------------------------------------
  // Calls made while not connected
  // ---------------------------------------------------------------------------

  /** Every action is a call of `send` or `invoke`. */
  predicate Calls(acts: seq<Action>) {
    forall k :: 0 <= k < |acts| ==> acts[k].DoSend? || acts[k].DoInvoke?
  }

  function InvokeCount(acts: seq<Action>): nat
    decreases |acts|
  {
    if |acts| == 0 then 0
    else InvokeCount(acts[..|acts| - 1]) + (if acts[|acts| - 1].DoInvoke? then 1 else 0)
  }

  /** The operations the calls `acts` bring to `_push`, in call order; the
      invokes hold consecutive handles from `next` on. */
  function CallOps(next: Handle, acts: seq<Action>): (ops: seq<Op>)
    requires Calls(acts)
    ensures |ops| == |acts|
    decreases |acts|
  {
    if |acts| == 0 then []
    else
      var init := acts[..|acts| - 1];
      CallOps(next, init) + [CallOp(acts[|acts| - 1], next + InvokeCount(init))]
  }

  /** While the hub is not connected, a run of `send`/`invoke` calls acts on
      the queue exactly as the same operations pushed one after another: the
      queue and the rejections are those of the run of pushes, the state and
      the deliveries are untouched, and one handle is used per invoke. */
  lemma {:induction false} CallsWhileDown(h: Hub, acts: seq<Action>)
    requires h.state != Connected && Calls(acts)
    ensures var r := Run(h, acts);
      var p := PushAll(h.options.queue, h.queue, CallOps(h.nextHandle, acts));
      && r.queue == p.queue && r.settled == h.settled + p.settled
      && r.state == h.state && r.delivered == h.delivered
      && r.nextHandle == h.nextHandle + InvokeCount(acts)
    decreases |acts|
  {
    if |acts| == 0 {
      assert h.settled + [] == h.settled;
    } else {
      var init, a := acts[..|acts| - 1], acts[|acts| - 1];
      assert Calls(init) by {
        forall k | 0 <= k < |init|
          ensures init[k].DoSend? || init[k].DoInvoke?
        {
          assert init[k] == acts[k];
        }
      }
      CallsWhileDown(h, init);
      SnocSplit(acts);
      RunSnoc(h, init, a);
      var mid := Run(h, init);
      ApplyPushes(mid, a);
      CallStep(h, mid, Apply(mid, a), init, a);
    }
  }

  /** One more call on top of a run of calls made while not connected: `r` is
      the hub after pushing that call's operation onto `mid`. */
  lemma CallStep(h: Hub, mid: Hub, r: Hub, init: seq<Action>, a: Action)
    requires Calls(init) && Calls(init + [a]) && (a.DoSend? || a.DoInvoke?) && h.state != Connected
    requires var p := PushAll(h.options.queue, h.queue, CallOps(h.nextHandle, init));
      && mid.queue == p.queue && mid.settled == h.settled + p.settled
      && mid.state == h.state && mid.delivered == h.delivered && mid.options == h.options
      && mid.nextHandle == h.nextHandle + InvokeCount(init)
    requires var x := Push(h.options.queue, mid.queue, CallOp(a, mid.nextHandle));
      && r.queue == x.queue && r.settled == mid.settled + x.settled
      && r.state == mid.state && r.delivered == mid.delivered
      && r.nextHandle == mid.nextHandle + (if a.DoInvoke? then 1 else 0)
    ensures var p := PushAll(h.options.queue, h.queue, CallOps(h.nextHandle, init + [a]));
      && r.queue == p.queue && r.settled == h.settled + p.settled
      && r.state == h.state && r.delivered == h.delivered
      && r.nextHandle == h.nextHandle + InvokeCount(init + [a])
  {
    var acts := init + [a];
    assert acts[..|acts| - 1] == init && acts[|acts| - 1] == a;
    var opts := h.options.queue;
    var op := CallOp(a, mid.nextHandle);
    var before := CallOps(h.nextHandle, init);
    assert CallOps(h.nextHandle, acts) == before + [op];
    PushAllSnoc(opts, h.queue, before, op);
    var pInit := PushAll(opts, h.queue, before);
    var last := Push(opts, pInit.queue, op);
    SeqAssoc(h.settled, pInit.settled, last.settled);
  }

  /** Under "oldest", the calls made while not connected are replayed once
      `start` succeeds and the connection answers: exactly the newest
      `maxSize` of the queued and called operations are delivered, in call
      order, and each of their invokes resolves, in the same order. */
  lemma CallsReplayedAfterStart(h: Hub, acts: seq<Action>, v: Value, ticks: seq<Tick>)
    requires h.state != Connected && Calls(acts)
    requires h.options.queue.enabled && h.options.queue.dropStrategy == "oldest"
    requires h.options.queue.maxSize >= 1 && |h.queue| <= h.options.queue.maxSize
    requires AllAnswered(ticks) && |ticks| >= h.options.queue.maxSize
    ensures var ops := Newest(h.options.queue.maxSize, h.queue + CallOps(h.nextHandle, acts));
      var s := StartSettled(Connect(Run(h, acts)), Ok(v), ticks).hub;
      && s.state == Connected && s.queue == []
      && s.delivered == h.delivered + ops
      && Handles(s.settled) == Handles(h.settled) + QueuedHandles(ops)
      && (forall k :: |h.settled| <= k < |s.settled| ==> s.settled[k].Resolved?)
  {
    var ops := CallOps(h.nextHandle, acts);
    CallsWhileDown(h, acts);
    PushAllKeepsNewest(h.options.queue, h.queue, ops);
    var mid := Run(h, acts);
    assert mid.settled == h.settled;
    StartReplaysQueue(Connect(mid), v, ticks);
  }
}
